=== FILE: README.md ===
# Barangay document portal — verified model of the request core

This project models the decision and state-update core of a small municipal
web application (`main.py`): residents register and log in, pick one of three
civic documents (barangay clearance, residence certification, indigency
certificate), submit a form and a photo, and download a generated Word
document. The model covers:

- **Upload** — `allowed_file`: the text after the last `.` of a file name,
  lower-cased, must be one of `png`, `jpg`, `jpeg`, `gif`.
- **Forms** — `validate_barangay_clearance` (five required fields, then a photo
  with a non-empty filename) and `validate_indigency` (every submitted value
  non-empty), each as a read-only loop proved equal to a predicate.
- **Accounts** — the user store (`users`, seeded with `admin`), the ordered
  chain of registration checks, the login test, and the invariant every
  reachable store satisfies.
- **Routes** — the `document_request` dispatch, the session's contents, the
  `download_file` guard, and the arguments `document_generated` and
  `download_file` pass to the document composer.
- **Portal** — class `App` holding the process-wide `users` map and one
  browser's `session`, with methods for the POST handlers of `register`,
  `login`, `logout`, `barangay_clearance_request` and `indigency_request`.
  Each method states its whole new state in terms of the old one and keeps
  `Valid()`: the store invariant plus "a logged-in user is a stored user".

Requests arrive as values: a form is a `map<string, string>` (first value per
field), the clearance photo is `Option<string>` (the upload's filename, absent
when no `photo` part was sent), and the sanitised upload name produced by
werkzeug's `secure_filename` is passed in as a parameter.

Three facts about the code that a reader might not expect:
- Registering `admin` is reported as "Username already exists", not as
  restricted: `admin` is seeded into `users`, and the duplicate check runs
  before the restricted check (`Accounts.RegisterExamples`).
- The clearance photo is not optional: validation fails without an upload
  whose filename is non-empty. Both validators return only true or false,
  with no list of the fields that failed.
- `residence_certification` is a recognised document type, but its redirect
  names an endpoint `residence_certification_request` that no route of
  `main.py` registers. Building that URL raises, so the request fails with a
  server error (`Routes.DocumentRequest`, `Routes.DocumentRequestTargets`).

## Model

| member | source | states |
|---|---|---|
| Upload.LastIndexOf | main.py:28 | there is no result exactly when the character does not occur; otherwise the result holds the character and nothing after it does (the last occurrence) |
| Upload.RSplitOnce | main.py:28 | `rsplit(sep, 1)`: no split exactly when `sep` is absent; otherwise stem + sep + extension rebuilds the name and the extension contains no `sep` |
| Upload.Lower | main.py:28 | same length, no upper-case ASCII letter left, each letter lowered and every other character kept |
| Upload.AllowedFile | main.py:21-28 | `allowed_file` holds iff some `.` has no `.` after it and the lower-cased text after it is png, jpg, jpeg or gif (both directions, against an independent reference reading) |
| Upload.AllowedFileIgnoresCase | main.py:28 | lower-casing the file name never changes the verdict |
| Upload.AllowedFileExamples | main.py:27-28 | `a.tar.PNG` and `photo.JpEg` are accepted; `png`, `x.` and `photo.png.exe` are rejected |
| Forms.ValidateBarangayClearance | main.py:108-120 | true iff all five required fields are present and non-empty and a photo with a non-empty filename was sent |
| Forms.MissingClearanceFieldRejects | main.py:111-114 | any one required field missing or empty fails validation, whatever the photo |
| Forms.ClearanceIgnoresExtension | main.py:116-120 | validation only requires the photo's filename to be non-empty; its extension is not looked at |
| Forms.ClearanceIgnoresExtraFields | main.py:111-114 | adding a field outside the five required ones never changes the verdict |
| Forms.ValidateIndigency | main.py:164-170 | true iff no submitted value is empty |
| Forms.IndigencyVerdicts | main.py:167-170 | the empty form is valid; a form with one empty value is invalid |
| Forms.ValidatorsIndependent | main.py:108-170 | a valid clearance form can fail indigency validation, and the empty form passes indigency but not clearance validation |
| Accounts.RegisterError.Message | main.py:55-75 | every registration error has a non-empty message text |
| Accounts.MessagesDistinct | main.py:55-75 | different registration errors have different message texts |
| Accounts.RegisterCheck | main.py:53-75 | the ordered check chain accepts iff the username is new, not restricted, alphanumeric, and the password has at least 8 characters and is alphanumeric |
| Accounts.RegisterFirstFailureDecides | main.py:53-75 | each error is reported iff its check fails and every earlier check in the source's order passed |
| Accounts.AfterRegister | main.py:58-78 | on success the store gains exactly the new entry; every existing entry is kept with its password; on rejection the store is unchanged |
| Accounts.InitialStoreInvariant | main.py:13-18 | the seeded store satisfies the store invariant |
| Accounts.RegisterPreservesStoreInvariant | main.py:53-78 | any registration attempt keeps the store invariant |
| Accounts.StoreInvariantConsequences | main.py:62-71 | no reachable store holds `root` or `superuser`, and every account other than `admin` has a password of at least 8 characters and an alphanumeric username |
| Accounts.RegisterThenLogin | main.py:40-78 | after a successful registration the new credentials log in and every other user's login verdict is unchanged; a rejected registration changes no login verdict |
| Accounts.LoginAccepted | main.py:40 | a login is accepted iff the (username, password) pair is one of the stored entries |
| Accounts.RegisterExamples | main.py:13-75 | `admin` is a duplicate, `root` is restricted, `ab`/`short1` is too short, names or passwords with a space are refused, an empty username is refused, `newuser1`/`password1` is accepted |
| Routes.DocumentRequest | main.py:95-105 | a missing `document_type` is a bad request; a tag in the dispatch table redirects iff its endpoint is registered and is a server error otherwise; any other tag gives "Invalid document type" |
| Routes.DocumentRequestTargets | main.py:96-105 | three tags are recognised; `barangay_clearance` and `indigency` redirect to distinct endpoints; `residence_certification` ends in a server error |
| Routes.DocumentGeneratedCallAsWritten | main.py:263 | as written, the photo slot is always empty and the stored photo path goes to the left-logo slot |
| Routes.DocumentGeneratedCall | main.py:263 | the corrected call passes the stored photo as the photo, no logos, and the stored form |
| Routes.DocumentGeneratedMisplacesPhoto | main.py:175-263 | as written, a stored photo never reaches the photo slot and is embedded as the left logo instead |
| Routes.DownloadFile | main.py:275-295 | no form or an empty form gives "Form data not found"; a form lacking one of the five clearance fields makes the composer raise `KeyError` (main.py:220-228); otherwise both logos, the stored form and photo, the fixed download name and the Word media type |
| Routes.ValidatedClearanceDownloads | main.py:220-228 | a form accepted by clearance validation always downloads; an indigency form without the clearance fields passes its validation and then makes the composer raise |
| Routes.DocumentGeneratedWithoutFormFails | main.py:263 | with no stored form, `document_generated` passes `{}` and the composer raises on the first field it reads |
| Routes.GeneratedAndDownloadAgree | main.py:263-289 | the corrected `document_generated` call and `download_file` pass the same form and photo, differing only in the logos |
| Routes.EmptyIndigencyFormNotDownloadable | main.py:277-281 | the empty indigency form passes validation, yet a session holding it cannot be downloaded |
| Portal.UploadPath | main.py:135 | for a name of the shape `secure_filename` returns, the path begins with `uploads/` and the rest has no separator and no leading `.`, so it names an entry directly inside the upload folder |
| Portal.RegisterResponseIdentifiesOutcome | main.py:54-80 | the response `register` gives tells success and each of the six errors apart |
| Portal.App.constructor | main.py:13-15 | the application starts with only the seeded `admin` account and an empty session |
| Portal.App.Register | main.py:49-80 | the response follows the ordered checks; the store becomes `AfterRegister` of the old store; only on success is the session user set; the invariant is kept |
| Portal.App.Login | main.py:36-44 | on a matching password only the session user changes; otherwise nothing changes and the generic error is shown; the store is never touched |
| Portal.App.Logout | main.py:89-91 | the session user is cleared and nothing else changes, so a second logout is a no-op |
| Portal.App.BarangayClearanceRequest | main.py:124-146 | an invalid form changes nothing; a valid form is stored before the extension check; the photo path is recorded iff the extension is allowed, otherwise it is left as it was and the format error is shown |
| Portal.App.IndigencyRequest | main.py:151-161 | a valid form is stored and the user is sent to document generation; an invalid one changes nothing |

## Left out

- GET requests, which only render a template, and the pages `index`, `dashboard`, `user_feedback` and `final_output`: presentation only.
- `generate_document` (main.py:175-258), the document composer: a sequence of calls into python-docx and PIL and file writes. Only the arguments it receives are modelled, and its one failure that depends on them: the `KeyError` when the form lacks a clearance field (`Routes.Composable`). Failures to read the logo or write the output file are I/O and not modelled.
- `document_generated` (main.py:261-269): only the call it makes is modelled, and the composer failure without a stored form; the success page it renders is not.
- `secure_filename` and `photo.save`: a foreign library and file I/O. The sanitised name is a parameter, constrained only by the shape of werkzeug's result (`Portal.SecureFilename`); the save is not modelled. `Portal.SecureFilename` admits the empty name, for which the path would be the folder `uploads/` itself and `photo.save` would raise before the path is recorded. That case does not arise: a name that passes `allowed_file` ends in an ASCII extension, which `secure_filename` keeps.
- `download_file` turns the returned path string, not the file, into the download body (main.py:292). Only the decision and the generate call are modelled.
- A POST without a `username` or `password` field makes Flask answer 400. `Portal.App.Register` and `Portal.App.Login` take the two values directly and do not model that case. `Routes.DocumentRequest` does model it for `document_type`.
- The clearance and indigency error pages echo the submitted form back (`form_data=request.form`, main.py:139, 146, 161); the login and register error pages do not. `Response.Render` records only the template and the error text.
- Forms with repeated keys: only the first value of each field is modelled.
- Upload.Lower: lower-cases ASCII letters only, where Python's `str.lower` covers all of Unicode. No non-ASCII character lower-cases to a single `p`, `n`, `g`, `j`, `e`, `i` or `f`, so the extension verdict is not affected.
- Accounts.IsAlphanumeric: accepts ASCII letters and digits only, where Python's `str.isalnum` also accepts other Unicode letters and digits. Names and passwords whose non-ASCII characters are all Unicode letters or digits are therefore refused by the model but accepted by the source.
- Lengths: a Dafny `char` is a Unicode scalar value, so `|password|` counts what Python's `len` counts.
- `Portal.App.Valid` includes "a logged-in user is a stored user". That holds for one process only: the session cookie is signed with a fixed key (main.py:10) and can outlive the in-memory `users` map of an earlier process.
- Sessions are signed cookies and `users` is shared by all requests. The model has one store and one browser's session, with no concurrency.
- Passwords are stored and compared in plain text; the model records this and does not change it.

## Findings

| source | as written | input that shows it | evidently intended | confidence | as-written member | corrected member |
|---|---|---|---|---|---|---|
| main.py:263 | `document_generated` passes the stored photo path as the second positional argument of `generate_document`, which is `logo_left_path` | a session whose photo path is `Some("uploads/juan.png")`: the photo is embedded as the left header logo and the photo slot is empty | the photo path goes to the `photo_path` parameter, as `download_file` does at main.py:289 | high; not executed | Routes.DocumentGeneratedCallAsWritten, shown by Routes.DocumentGeneratedMisplacesPhoto | Routes.DocumentGeneratedCall |

=== FILE: accounts.dfy ===
/** The user store of main.py and the decision logic of `register` and
    `login`, on values. The class in the Portal module applies these
    decisions to the running application's state. */
module Accounts {
  import opened Wrappers

  /** username -> password, stored and compared in plain text. */
  type Users = map<string, string>

  /** The module-level `users` dictionary as the application starts (main.py:13-15). */
  const InitialUsers: Users := map["admin" := "admin123"]

  /** `restricted_usernames` (main.py:18). */
  const RestrictedUsernames: seq<string> := ["admin", "root", "superuser"]

  /** The shortest password `register` accepts (main.py:66). */
  const MinPasswordLength := 8

  /** Why `register` turns a request down, one case per error message. */
  datatype RegisterError =
    | Required
    | AlreadyExists
    | Restricted
    | PasswordTooShort
    | UsernameNotAlphanumeric
    | PasswordNotAlphanumeric
  {
    /** The error text rendered into the registration page (main.py:55-75). */
    function Message(): (m: string)
      ensures m != ""
    {
      match this
      case Required => "Username and password are required"
      case AlreadyExists => "Username already exists"
      case Restricted => "Username is restricted, please choose another one"
      case PasswordTooShort => "Password must be at least 8 characters long"
      case UsernameNotAlphanumeric => "Username must contain only letters and numbers"
      case PasswordNotAlphanumeric => "Password must contain only letters and numbers"
    }
  }

  /** Different errors put different texts on the page. */
  lemma MessagesDistinct(e1: RegisterError, e2: RegisterError)
    ensures e1.Message() == e2.Message() ==> e1 == e2
  {
  }

  predicate AlphanumericChar(c: char) {
    'a' <= c <= 'z' || 'A' <= c <= 'Z' || '0' <= c <= '9'
  }

  /** `str.isalnum()`: at least one character, and every character a letter
      or a digit (here: ASCII letters and digits). */
  predicate IsAlphanumeric(s: string) {
    |s| > 0 && forall i :: 0 <= i < |s| ==> AlphanumericChar(s[i])
  }

  /** The checks of `register` (main.py:53-75) in the order the source runs
      them; the first one that fails decides the error. */
  function RegisterCheck(users: Users, username: string, password: string): (r: Option<RegisterError>)
    ensures r.None? <==> username !in users && AcceptableCredentials(username, password)
  {
    if username == "" || password == "" then Some(Required)
    else if username in users then Some(AlreadyExists)
    else if username in RestrictedUsernames then Some(Restricted)
    else if |password| < MinPasswordLength then Some(PasswordTooShort)
    else if !IsAlphanumeric(username) then Some(UsernameNotAlphanumeric)
    else if !IsAlphanumeric(password) then Some(PasswordNotAlphanumeric)
    else None
  }

  /** Credentials that pass every check except the duplicate check. */
  predicate AcceptableCredentials(username: string, password: string) {
    && username !in RestrictedUsernames
    && |password| >= MinPasswordLength
    && IsAlphanumeric(username)
    && IsAlphanumeric(password)
  }

  /** Each error is reported exactly when its check fails and every earlier check passed. */
  lemma RegisterFirstFailureDecides(users: Users, username: string, password: string)
    ensures RegisterCheck(users, username, password) == Some(Required) <==>
            username == "" || password == ""
    ensures RegisterCheck(users, username, password) == Some(AlreadyExists) <==>
            username != "" && password != "" && username in users
    ensures RegisterCheck(users, username, password) == Some(Restricted) <==>
            username != "" && password != "" && username !in users && username in RestrictedUsernames
    ensures RegisterCheck(users, username, password) == Some(PasswordTooShort) <==>
            username != "" && password != "" && username !in users && username !in RestrictedUsernames
            && |password| < MinPasswordLength
    ensures RegisterCheck(users, username, password) == Some(UsernameNotAlphanumeric) <==>
            username != "" && username !in users && username !in RestrictedUsernames
            && |password| >= MinPasswordLength && !IsAlphanumeric(username)
    ensures RegisterCheck(users, username, password) == Some(PasswordNotAlphanumeric) <==>
            username !in users && username !in RestrictedUsernames && |password| >= MinPasswordLength
            && IsAlphanumeric(username) && !IsAlphanumeric(password)
  {
  }

  /** The store after a registration attempt: one new entry on success, the
      same store on any rejection. */
  function AfterRegister(users: Users, username: string, password: string): (r: Users)
    ensures RegisterCheck(users, username, password).None? ==>
            r.Keys == users.Keys + {username} && r[username] == password
    ensures forall u :: u in users ==> u in r && r[u] == users[u]
    ensures RegisterCheck(users, username, password).Some? ==> r == users
  {
    if RegisterCheck(users, username, password).None? then users[username := password] else users
  }

  /** `login`'s test (main.py:40): the user exists and the password matches. */
  predicate LoginAccepted(users: Users, username: string, password: string): (ok: bool)
    ensures ok <==> (username, password) in users.Items
  {
    username in users && users[username] == password
  }

  /** What every reachable user store satisfies: the seeded `admin` account
      is still there with its password, and every other account passed the
      registration checks. */
  predicate StoreInvariant(users: Users) {
    && "admin" in users && users["admin"] == "admin123"
    && forall u :: u in users && u != "admin" ==> AcceptableCredentials(u, users[u])
  }

  lemma InitialStoreInvariant()
    ensures StoreInvariant(InitialUsers)
  {
  }

  /** Registration, successful or not, keeps the store invariant. */
  lemma RegisterPreservesStoreInvariant(users: Users, username: string, password: string)
    requires StoreInvariant(users)
    ensures StoreInvariant(AfterRegister(users, username, password))
  {
  }

  /** No reachable store holds a restricted username other than the seeded
      `admin`, and no reachable store holds an account whose password is
      shorter than eight characters other than `admin`'s. */
  lemma StoreInvariantConsequences(users: Users, username: string)
    requires StoreInvariant(users)
    ensures "root" !in users && "superuser" !in users
    ensures username in users && username != "admin" ==>
            |users[username]| >= MinPasswordLength && IsAlphanumeric(username)
  {
    assert "root" == RestrictedUsernames[1] && "superuser" == RestrictedUsernames[2];
  }

  /** After a successful registration the new credentials log in, and every
      other user's login verdict is what it was; a rejected registration
      changes no login verdict at all. */
  lemma RegisterThenLogin(users: Users, username: string, password: string, other: string, otherPassword: string)
    ensures RegisterCheck(users, username, password).None? ==>
            LoginAccepted(AfterRegister(users, username, password), username, password)
    ensures other != username || RegisterCheck(users, username, password).Some? ==>
            LoginAccepted(AfterRegister(users, username, password), other, otherPassword) ==
            LoginAccepted(users, other, otherPassword)
  {
  }

  /** The checks on concrete requests against the initial store: `admin` is
      reported as a duplicate (it is seeded) before the restricted check is
      reached, while `root` is reported as restricted. */
  lemma RegisterExamples()
    ensures RegisterCheck(InitialUsers, "admin", "whatever12") == Some(AlreadyExists)
    ensures RegisterCheck(InitialUsers, "root", "password1") == Some(Restricted)
    ensures RegisterCheck(InitialUsers, "ab", "short1") == Some(PasswordTooShort)
    ensures RegisterCheck(InitialUsers, "new user", "password1") == Some(UsernameNotAlphanumeric)
    ensures RegisterCheck(InitialUsers, "newuser1", "pass word1") == Some(PasswordNotAlphanumeric)
    ensures RegisterCheck(InitialUsers, "", "password1") == Some(Required)
    ensures RegisterCheck(InitialUsers, "newuser1", "password1") == None
  {
    assert "root" == RestrictedUsernames[1];
    assert !AlphanumericChar("new user"[3]);
    assert !AlphanumericChar("pass word1"[4]);
    assert "newuser1" !in RestrictedUsernames;
  }
}

=== FILE: forms.dfy ===
/** The two form validators of main.py. A submitted form is a mapping from
    field name to the (first) submitted value; the clearance photo is the
    filename of the `photo` upload, absent when no such upload was sent. */
module Forms {
  import opened Wrappers

  type Form = map<string, string>

  /** `required_fields` of `validate_barangay_clearance` (main.py:111), in order. */
  const ClearanceFields: seq<string> := ["first_name", "middle_name", "last_name", "address", "purpose"]

  /** A field is present and its value is not the empty string. */
  predicate Filled(form: Form, field: string) {
    field in form && form[field] != ""
  }

  predicate ClearanceFieldsFilled(form: Form) {
    forall i :: 0 <= i < |ClearanceFields| ==> Filled(form, ClearanceFields[i])
  }

  /** A `photo` upload was sent and its filename is not empty (main.py:117). */
  predicate PhotoAttached(photo: Option<string>) {
    photo.Some? && photo.value != ""
  }

  /** What `validate_barangay_clearance` decides. */
  predicate ClearanceValid(form: Form, photo: Option<string>) {
    ClearanceFieldsFilled(form) && PhotoAttached(photo)
  }

  /** `validate_barangay_clearance` (main.py:108-120): the required fields in
      order, stopping at the first missing or empty one, then the photo. */
  method ValidateBarangayClearance(form: Form, photo: Option<string>) returns (ok: bool)
    ensures ok <==> ClearanceValid(form, photo)
  {
    for i := 0 to |ClearanceFields|
      invariant forall j :: 0 <= j < i ==> Filled(form, ClearanceFields[j])
    {
      var field := ClearanceFields[i];
      if field !in form || form[field] == "" {
        return false;
      }
    }
    if photo.None? || photo.value == "" {
      return false;
    }
    return true;
  }

  /** Any one required field missing or empty fails validation, whatever the photo. */
  lemma MissingClearanceFieldRejects(form: Form, photo: Option<string>, field: string)
    requires field in ClearanceFields && !Filled(form, field)
    ensures !ClearanceValid(form, photo)
  {
    var i :| 0 <= i < |ClearanceFields| && ClearanceFields[i] == field;
  }

  /** Validation looks only at whether a filename is present, not at its
      extension: a `.bmp` photo passes as well as a `.png` one. */
  lemma ClearanceIgnoresExtension(form: Form, name1: string, name2: string)
    requires name1 != "" && name2 != ""
    ensures ClearanceValid(form, Some(name1)) == ClearanceValid(form, Some(name2))
  {
  }

  /** Extra fields beyond the five required ones never change the verdict. */
  lemma ClearanceIgnoresExtraFields(form: Form, photo: Option<string>, field: string, value: string)
    requires field !in ClearanceFields
    ensures ClearanceValid(form[field := value], photo) == ClearanceValid(form, photo)
  {
    assert forall i :: 0 <= i < |ClearanceFields| ==> ClearanceFields[i] != field;
  }

  /** What `validate_indigency` decides: no submitted value is empty. */
  predicate AllValuesFilled(form: Form) {
    forall field :: field in form ==> form[field] != ""
  }

  /** `validate_indigency` (main.py:164-170): walk the submitted values and
      stop at the first empty one. */
  method ValidateIndigency(form: Form) returns (ok: bool)
    ensures ok <==> AllValuesFilled(form)
  {
    var remaining := form.Values;
    while remaining != {}
      invariant remaining <= form.Values
      invariant "" !in form.Values - remaining
      decreases remaining
    {
      var value :| value in remaining;
      if value == "" {
        return false;
      }
      remaining := remaining - {value};
    }
    assert forall field :: field in form ==> form[field] in form.Values;
    return true;
  }

  /** An empty form is (vacuously) valid; any empty value makes a form invalid. */
  lemma IndigencyVerdicts(form: Form, field: string)
    ensures AllValuesFilled(map[])
    ensures field in form && form[field] == "" ==> !AllValuesFilled(form)
  {
  }

  /** A form that passes clearance validation need not pass indigency
      validation (an extra empty field), and a form that passes indigency
      validation need not pass clearance validation (the empty form). */
  lemma ValidatorsIndependent()
    ensures ClearanceValid(map["first_name" := "Juan", "middle_name" := "Dela", "last_name" := "Cruz",
                               "address" := "123 Main St", "purpose" := "Employment", "remarks" := ""],
                           Some("juan.png"))
    ensures !AllValuesFilled(map["first_name" := "Juan", "middle_name" := "Dela", "last_name" := "Cruz",
                                 "address" := "123 Main St", "purpose" := "Employment", "remarks" := ""])
    ensures AllValuesFilled(map[]) && !ClearanceValid(map[], Some("juan.png"))
  {
    var form := map["first_name" := "Juan", "middle_name" := "Dela", "last_name" := "Cruz",
                    "address" := "123 Main St", "purpose" := "Employment", "remarks" := ""];
    assert form["remarks"] == "";
    assert !Filled(map[], ClearanceFields[0]);
  }
}

=== FILE: portal.dfy ===
/** The running application of main.py: the process-wide `users` dictionary
    and one browser's `session`, updated in place by the POST handlers of
    `register`, `login`, `logout`, `barangay_clearance_request` and
    `indigency_request`. */
module Portal {
  import opened Wrappers
  import opened Upload
  import opened Forms
  import opened Accounts
  import opened Routes

  /** `app.config['UPLOAD_FOLDER']` (main.py:24). */
  const UploadFolder := "uploads"

  /** The shape of what werkzeug's `secure_filename` returns: only ASCII
      letters, digits, `_`, `.` and `-`, and no `.` or `_` at either end. */
  predicate SecureFilename(name: string) {
    && (forall i :: 0 <= i < |name| ==>
          'a' <= name[i] <= 'z' || 'A' <= name[i] <= 'Z' || '0' <= name[i] <= '9' ||
          name[i] == '_' || name[i] == '.' || name[i] == '-')
    && (name != "" ==> name[0] !in {'.', '_'} && name[|name| - 1] !in {'.', '_'})
  }

  /** `os.path.join(UPLOAD_FOLDER, name)` for a sanitised name (main.py:135):
      the part after `uploads/` has no separator and does not start with `.`,
      so it is neither `.` nor `..` and names an entry directly inside the
      upload folder. An empty name would give the folder itself; a name that
      passes `AllowedFile` keeps its ASCII extension through sanitising, so
      that case does not arise. */
  function UploadPath(secureName: string): (p: string)
    requires SecureFilename(secureName)
    ensures |p| > |UploadFolder| && p[..|UploadFolder| + 1] == UploadFolder + "/"
    ensures '/' !in p[|UploadFolder| + 1..]
    ensures |p| > |UploadFolder| + 1 ==> p[|UploadFolder| + 1] != '.'
  {
    var p := UploadFolder + "/" + secureName;
    assert p[|UploadFolder| + 1..] == secureName;
    p
  }

  const InvalidCredentialsMessage := "Invalid username or password"
  const InvalidInformationMessage := "Invalid information. Please correct the fields."
  const InvalidFormatMessage := "Invalid file format. Allowed formats: png, jpg, jpeg, gif"

  /** The response `register` gives for the outcome of its checks. */
  function RegisterResponse(check: Option<RegisterError>): Response {
    match check
    case None => Redirect("dashboard")
    case Some(e) => Render("register.html", e.Message())
  }

  /** The page tells every outcome of the checks apart: success and each
      error give different responses. */
  lemma RegisterResponseIdentifiesOutcome(a: Option<RegisterError>, b: Option<RegisterError>)
    ensures RegisterResponse(a) == RegisterResponse(b) ==> a == b
  {
    if a.Some? && b.Some? {
      MessagesDistinct(a.value, b.value);
    }
  }

  class App {
    var users: Users
    var session: Session

    /** The store invariant, and a logged-in user is always a stored user.
        The second part holds for this model of one process; a session
        cookie signed by an earlier process can name a user the current
        `users` map does not hold. */
    ghost predicate Valid()
      reads this
    {
      StoreInvariant(users) && (session.username.Some? ==> session.username.value in users)
    }

    /** The application as it starts: only the seeded account, an empty session. */
    constructor ()
      ensures Valid()
      ensures users == InitialUsers && session == EmptySession
    {
      users := InitialUsers;
      session := EmptySession;
    }

    /** A POST to `register` (main.py:49-80): the checks in the source's order;
        only when all pass is the account added and the user logged in. */
    method Register(username: string, password: string) returns (r: Response)
      requires Valid()
      modifies this
      ensures Valid()
      ensures r == RegisterResponse(RegisterCheck(old(users), username, password))
      ensures users == AfterRegister(old(users), username, password)
      ensures session == if RegisterCheck(old(users), username, password).None?
                         then old(session).(username := Some(username))
                         else old(session)
    {
      if username == "" || password == "" {
        return Render("register.html", Required.Message());
      }
      if username in users {
        return Render("register.html", AlreadyExists.Message());
      }
      if username in RestrictedUsernames {
        return Render("register.html", Restricted.Message());
      }
      if |password| < MinPasswordLength {
        return Render("register.html", PasswordTooShort.Message());
      }
      if !IsAlphanumeric(username) {
        return Render("register.html", UsernameNotAlphanumeric.Message());
      }
      if !IsAlphanumeric(password) {
        return Render("register.html", PasswordNotAlphanumeric.Message());
      }
      RegisterPreservesStoreInvariant(users, username, password);
      users := users[username := password];
      session := session.(username := Some(username));
      return Redirect("dashboard");
    }

    /** A POST to `login` (main.py:36-44): on a match only the session user
        changes; on a mismatch nothing changes. */
    method Login(username: string, password: string) returns (r: Response)
      requires Valid()
      modifies this
      ensures Valid()
      ensures users == old(users)
      ensures LoginAccepted(old(users), username, password) ==>
              r == Redirect("dashboard") && session == old(session).(username := Some(username))
      ensures !LoginAccepted(old(users), username, password) ==>
              r == Render("login.html", InvalidCredentialsMessage) && session == old(session)
    {
      if username in users && users[username] == password {
        session := session.(username := Some(username));
        return Redirect("dashboard");
      }
      return Render("login.html", InvalidCredentialsMessage);
    }

    /** `logout` (main.py:89-91): the session forgets the user and nothing
        else; so a second logout changes nothing. */
    method Logout() returns (r: Response)
      requires Valid()
      modifies this
      ensures Valid()
      ensures users == old(users)
      ensures session == old(session).(username := None)
      ensures old(session.username).None? ==> session == old(session)
      ensures r == Redirect("index")
    {
      session := session.(username := None);
      return Redirect("index");
    }

    /** A POST to `barangay_clearance_request` (main.py:124-146). `photo` is the
        filename of the `photo` upload, if one was sent; `secureName` is what
        werkzeug's `secure_filename` makes of it. A valid form is stored in the
        session BEFORE the extension check, so a rejected extension still
        replaces the stored form but keeps the stored photo path. */
    method BarangayClearanceRequest(form: Form, photo: Option<string>, secureName: string) returns (r: Response)
      requires Valid() && SecureFilename(secureName)
      modifies this
      ensures Valid()
      ensures users == old(users) && session.username == old(session.username)
      ensures !ClearanceValid(form, photo) ==>
              r == Render("barangay_clearance_form.html", InvalidInformationMessage) && session == old(session)
      ensures ClearanceValid(form, photo) ==> session.formData == Some(form)
      ensures ClearanceValid(form, photo) && AllowedFile(photo.value) ==>
              r == Redirect("document_generated") && session.photoPath == Some(UploadPath(secureName))
      ensures ClearanceValid(form, photo) && !AllowedFile(photo.value) ==>
              r == Render("barangay_clearance_form.html", InvalidFormatMessage)
              && session.photoPath == old(session.photoPath)
    {
      var isValid := ValidateBarangayClearance(form, photo);
      if !isValid {
        return Render("barangay_clearance_form.html", InvalidInformationMessage);
      }
      session := session.(formData := Some(form));
      var filename := photo.value;
      // The source's branch for an empty filename (storing a `None` photo
      // path) cannot be taken: validation has already required a non-empty one.
      assert filename != "";
      if !AllowedFile(filename) {
        return Render("barangay_clearance_form.html", InvalidFormatMessage);
      }
      // photo.save(path) writes the upload to disk; only the path is kept.
      session := session.(photoPath := Some(UploadPath(secureName)));
      return Redirect("document_generated");
    }

    /** A POST to `indigency_request` (main.py:151-161): a valid form is stored
        in the session; an invalid one changes nothing. */
    method IndigencyRequest(form: Form) returns (r: Response)
      requires Valid()
      modifies this
      ensures Valid()
      ensures users == old(users)
      ensures AllValuesFilled(form) ==>
              r == Redirect("document_generated") && session == old(session).(formData := Some(form))
      ensures !AllValuesFilled(form) ==>
              r == Render("indigency.html", InvalidInformationMessage) && session == old(session)
    {
      var isValid := ValidateIndigency(form);
      if isValid {
        session := session.(formData := Some(form));
        return Redirect("document_generated");
      }
      return Render("indigency.html", InvalidInformationMessage);
    }
  }

  /** A client of the class: a fresh application, the registrations and
      logins a user can try, and what the contracts alone guarantee. */
  method RegisterLoginScenario() {
    var app := new App();
    RegisterExamples();
    var r := app.Register("admin", "whatever12");
    assert r == Render("register.html", "Username already exists");
    r := app.Register("root", "password1");
    assert r == Render("register.html", "Username is restricted, please choose another one");
    assert app.session.username.None?;
    r := app.Register("newuser1", "password1");
    assert r == Redirect("dashboard") && app.session.username == Some("newuser1");
    r := app.Logout();
    r := app.Logout();
    assert app.session.username.None?;
    r := app.Login("newuser1", "password1");
    assert r == Redirect("dashboard") && app.session.username == Some("newuser1");
    r := app.Login("admin", "wrong");
    assert r == Render("login.html", InvalidCredentialsMessage) && app.session.username == Some("newuser1");
    r := app.Login("admin", "admin123");
    assert app.session.username == Some("admin");
  }
}

=== FILE: routes.dfy ===
/** Route outcomes of main.py as values: the response kinds a view returns,
    the dispatch of `document_request`, the per-browser session, and the
    decisions `document_generated` and `download_file` take on it. */
module Routes {
  import opened Wrappers
  import opened Forms

  /** What a view hands back to the framework. */
  datatype Response =
    | Redirect(endpoint: string)             // redirect(url_for(endpoint))
    | Render(template: string, error: string) // render_template(template, error=...)
    | Text(body: string)                     // a bare string body
    | BadRequest                             // request.form[key] with key missing
    | ServerError                            // an exception escapes the view

  /** The endpoints main.py registers with `@app.route` (the view function names). */
  const RegisteredEndpoints: set<string> :=
    {"index", "login", "register", "dashboard", "logout", "document_request",
     "barangay_clearance_request", "indigency_request", "document_generated",
     "download_file", "user_feedback", "final_output"}

  /** The dispatch table of `document_request` (main.py:97-102), as a table. */
  const DocumentRoutes: map<string, string> :=
    map["barangay_clearance" := "barangay_clearance_request",
        "residence_certification" := "residence_certification_request",
        "indigency" := "indigency_request"]

  /** `redirect(url_for(endpoint))`: `url_for` raises for a name no route
      registers, and the exception makes the request fail. */
  function RedirectTo(endpoint: string): Response {
    if endpoint in RegisteredEndpoints then Redirect(endpoint) else ServerError
  }

  /** A POST to `document_request` (main.py:95-105). */
  function DocumentRequest(form: Form): (r: Response)
    ensures r == BadRequest <==> "document_type" !in form
    ensures r.Redirect? <==>
            "document_type" in form && form["document_type"] in DocumentRoutes &&
            DocumentRoutes[form["document_type"]] in RegisteredEndpoints
    ensures r.Redirect? ==> r.endpoint in RegisteredEndpoints && r.endpoint == DocumentRoutes[form["document_type"]]
    ensures r == ServerError <==>
            "document_type" in form && form["document_type"] in DocumentRoutes &&
            DocumentRoutes[form["document_type"]] !in RegisteredEndpoints
    ensures r == Text("Invalid document type") <==>
            "document_type" in form && form["document_type"] !in DocumentRoutes
  {
    if "document_type" !in form then BadRequest
    else
      var documentType := form["document_type"];
      if documentType == "barangay_clearance" then RedirectTo("barangay_clearance_request")
      else if documentType == "residence_certification" then RedirectTo("residence_certification_request")
      else if documentType == "indigency" then RedirectTo("indigency_request")
      else Text("Invalid document type")
  }

  /** Three type tags are recognised. `barangay_clearance` and `indigency`
      redirect, each to its own endpoint; `residence_certification` names an
      endpoint main.py never registers, so it fails with a server error. */
  lemma DocumentRequestTargets(form: Form, other: Form)
    ensures |DocumentRoutes.Keys| == 3
    ensures DocumentRequest(form).Redirect? && DocumentRequest(other).Redirect? &&
            DocumentRequest(form) == DocumentRequest(other) ==>
            form["document_type"] == other["document_type"]
    ensures "document_type" in form ==>
            (DocumentRequest(form).Redirect? <==>
             form["document_type"] in {"barangay_clearance", "indigency"})
    ensures "document_type" in form && form["document_type"] == "residence_certification" ==>
            DocumentRequest(form) == ServerError
  {
    assert DocumentRoutes.Keys == {"barangay_clearance", "residence_certification", "indigency"};
  }

  /** The per-browser `session`: the logged-in user, the last accepted form
      and the last stored photo path (a missing key and a stored `None` both
      read back as `None` through `session.get`). */
  datatype Session = Session(username: Option<string>, formData: Option<Form>, photoPath: Option<string>)

  const EmptySession := Session(None, None, None)

  /** The arguments of one `generate_document(form_data, logo_left_path,
      logo_right_path, photo_path)` call. */
  datatype GenerateCall = GenerateCall(formData: Form, logoLeft: Option<string>,
                                       logoRight: Option<string>, photo: Option<string>)

  /** The logo both header slots use in `download_file` (main.py:284-285). */
  const LogoPath := "static/logo.jpg"

  /** The call `document_generated` makes AS WRITTEN (main.py:263): the photo
      path is passed positionally and so lands in the left-logo slot. */
  function DocumentGeneratedCallAsWritten(s: Session): (c: GenerateCall)
    ensures c.photo.None? && c.logoLeft == s.photoPath
  {
    GenerateCall(s.formData.GetOr(map[]), s.photoPath, None, None)
  }

  /** The call `document_generated` evidently means: the stored photo as the
      photo, no logos. */
  function DocumentGeneratedCall(s: Session): (c: GenerateCall)
    ensures c.photo == s.photoPath
    ensures c.logoLeft.None? && c.logoRight.None?
    ensures s.formData.Some? ==> c.formData == s.formData.value
  {
    GenerateCall(s.formData.GetOr(map[]), None, None, s.photoPath)
  }

  /** As written, a stored photo never reaches the photo slot; it is embedded
      as the left header logo instead. */
  lemma DocumentGeneratedMisplacesPhoto(s: Session)
    requires s.photoPath.Some?
    ensures DocumentGeneratedCallAsWritten(s).photo.None?
    ensures DocumentGeneratedCallAsWritten(s).logoLeft == s.photoPath
    ensures DocumentGeneratedCallAsWritten(s).photo != DocumentGeneratedCall(s).photo
  {
  }

  /** The file name and media type `download_file` sends (main.py:295). */
  const DownloadName := "barangay_clearance.docx"
  const DocxMimeType := "application/vnd.openxmlformats-officedocument.wordprocessingml.document"

  /** The composer reads the five clearance fields by key (main.py:220-228),
      outside any `try`: a form lacking one of them raises `KeyError`. */
  predicate Composable(form: Form) {
    forall i :: 0 <= i < |ClearanceFields| ==> ClearanceFields[i] in form
  }

  datatype DownloadOutcome =
    | FormDataNotFound
    | ComposerKeyError  // KeyError inside generate_document: the request fails
    | SendDocument(call: GenerateCall, downloadName: string, mimeType: string)

  /** `download_file` (main.py:275-295): no form, or an empty one, yields the
      plain failure text; a form lacking a clearance field makes the composer
      raise; otherwise the document is generated with both logos and the
      stored photo and sent under a fixed name. */
  function DownloadFile(s: Session): (r: DownloadOutcome)
    ensures r.FormDataNotFound? <==> s.formData.None? || s.formData.value == map[]
    ensures r.ComposerKeyError? <==>
            s.formData.Some? && s.formData.value != map[] && !Composable(s.formData.value)
    ensures r.SendDocument? ==>
            && Composable(s.formData.value)
            && r.call.formData == s.formData.value
            && r.call.logoLeft == Some(LogoPath) && r.call.logoRight == Some(LogoPath)
            && r.call.photo == s.photoPath
            && r.downloadName == DownloadName && r.mimeType == DocxMimeType
  {
    var formData := s.formData.GetOr(map[]);
    if formData == map[] then FormDataNotFound
    else if !Composable(formData) then ComposerKeyError
    else SendDocument(GenerateCall(formData, Some(LogoPath), Some(LogoPath), s.photoPath),
                      DownloadName, DocxMimeType)
  }

  /** A form that passed clearance validation is always downloadable; an
      indigency form without the clearance fields passes its own validation
      and then makes the composer raise. */
  lemma ValidatedClearanceDownloads(s: Session, photo: Option<string>)
    requires s.formData.Some? && ClearanceValid(s.formData.value, photo)
    ensures DownloadFile(s).SendDocument?
    ensures AllValuesFilled(map["name" := "Juan"])
    ensures DownloadFile(s.(formData := Some(map["name" := "Juan"]))) == ComposerKeyError
  {
    var form := s.formData.value;
    assert ClearanceFields[0] in form;
    assert map["name" := "Juan"] != map[] by {
      assert "name" in map["name" := "Juan"];
    }
    assert !Composable(map["name" := "Juan"]) by {
      assert ClearanceFields[0] !in map["name" := "Juan"];
    }
  }

  /** `document_generated` with no stored form passes `{}` (main.py:263), and
      the composer then raises on the first field it reads. */
  lemma DocumentGeneratedWithoutFormFails(s: Session)
    requires s.formData.None?
    ensures !Composable(DocumentGeneratedCall(s).formData)
    ensures !Composable(DocumentGeneratedCallAsWritten(s).formData)
  {
    assert ClearanceFields[0] !in DocumentGeneratedCall(s).formData;
  }

  /** The corrected `document_generated` call and `download_file` put the same
      form and photo into the document; they differ only in the logos. */
  lemma GeneratedAndDownloadAgree(s: Session)
    requires DownloadFile(s).SendDocument?
    ensures DownloadFile(s).call == DocumentGeneratedCall(s).(logoLeft := Some(LogoPath), logoRight := Some(LogoPath))
  {
  }

  /** An empty indigency form passes validation and is stored, yet
      `download_file` then reports that no form data was found. */
  lemma EmptyIndigencyFormNotDownloadable(username: Option<string>, photoPath: Option<string>)
    ensures AllValuesFilled(map[])
    ensures DownloadFile(Session(username, Some(map[]), photoPath)) == FormDataNotFound
  {
  }
}

=== FILE: upload.dfy ===
/** The upload extension check `allowed_file` of main.py: a file name is
    accepted when it has a `.` and the lower-cased text after its LAST `.` is
    one of the allowed image extensions. */
module Upload {
  import opened Wrappers

  /** `ALLOWED_EXTENSIONS` (main.py:21). */
  const AllowedExtensions: set<string> := {"png", "jpg", "jpeg", "gif"}

  /** The index of the last occurrence of `c` in `s`, if any. */
  function LastIndexOf(s: string, c: char): (r: Option<nat>)
    ensures r.None? <==> c !in s
    ensures r.Some? ==> r.value < |s| && s[r.value] == c && c !in s[r.value + 1..]
  {
    if |s| == 0 then None
    else if s[|s| - 1] == c then Some(|s| - 1)
    else
      assert s == s[..|s| - 1] + [s[|s| - 1]];
      LastIndexOf(s[..|s| - 1], c)
  }

  /** `s.rsplit(sep, 1)` for a one-character separator: `None` when `sep` does
      not occur (Python then returns the one-element list `[s]`), otherwise the
      text before and the text after the last `sep`. */
  function RSplitOnce(s: string, sep: char): (r: Option<(string, string)>)
    ensures r.None? <==> sep !in s
    ensures r.Some? ==> s == r.value.0 + [sep] + r.value.1 && sep !in r.value.1
  {
    match LastIndexOf(s, sep)
    case None => None
    case Some(i) =>
      assert s == s[..i] + [sep] + s[i + 1..];
      Some((s[..i], s[i + 1..]))
  }

  /** ASCII lower-casing of one character. */
  function LowerChar(c: char): (d: char)
    ensures !('A' <= d <= 'Z')
    ensures 'A' <= c <= 'Z' ==> d as int == c as int + 32
    ensures !('A' <= c <= 'Z') ==> d == c
  {
    if 'A' <= c <= 'Z' then (c as int + 32) as char else c
  }

  /** `s.lower()`, restricted to ASCII letters. */
  function Lower(s: string): (r: string)
    ensures |r| == |s|
    ensures forall i :: 0 <= i < |s| ==> r[i] == LowerChar(s[i])
  {
    seq(|s|, i requires 0 <= i < |s| => LowerChar(s[i]))
  }

  /** The reference reading of `allowed_file`: some `.` is followed by no
      further `.` and the lower-cased rest is an allowed extension. */
  ghost predicate HasAllowedExtension(filename: string) {
    exists i :: AllowedAfter(filename, i)
  }

  /** Position `i` holds a `.` with no `.` after it, and the lower-cased text
      after it is an allowed extension. */
  ghost predicate AllowedAfter(filename: string, i: int) {
    0 <= i < |filename| && filename[i] == '.' &&
    '.' !in filename[i + 1..] && Lower(filename[i + 1..]) in AllowedExtensions
  }

  /** A `.` followed by no further `.` is the one `LastIndexOf` finds. */
  lemma LastDotIsUnique(s: string, i: nat)
    requires i < |s| && s[i] == '.' && '.' !in s[i + 1..]
    ensures LastIndexOf(s, '.') == Some(i)
  {
    var j := LastIndexOf(s, '.').value;
    forall k | i < k < |s| ensures s[k] != '.' {
      assert s[i + 1..][k - i - 1] == s[k];
    }
    forall k | j < k < |s| ensures s[k] != '.' {
      assert s[j + 1..][k - j - 1] == s[k];
    }
  }

  /** Only the last `.` can witness the reference reading. */
  lemma AllowedAfterLastDot(filename: string)
    requires LastIndexOf(filename, '.').Some?
    ensures HasAllowedExtension(filename) <==> AllowedAfter(filename, LastIndexOf(filename, '.').value)
  {
    if HasAllowedExtension(filename) {
      var i :| AllowedAfter(filename, i);
      LastDotIsUnique(filename, i);
    }
  }

  /** `allowed_file(filename)` (main.py:27-28): the name has a `.`, and the
      lower-cased text after the last one is an allowed extension. */
  predicate AllowedFile(filename: string): (ok: bool)
    ensures ok <==> HasAllowedExtension(filename)
  {
    '.' in filename &&
    match RSplitOnce(filename, '.')
    case None => false
    case Some((_, ext)) =>
      AllowedAfterLastDot(filename);
      Lower(ext) in AllowedExtensions
  }

  /** Lower-casing twice is lower-casing once. */
  lemma LowerIdempotent(s: string)
    ensures Lower(Lower(s)) == Lower(s)
  {
  }

  /** Lower-casing keeps every `.` where it was. */
  lemma LowerKeepsLastDot(s: string)
    ensures LastIndexOf(Lower(s), '.') == LastIndexOf(s, '.')
  {
    match LastIndexOf(s, '.')
    case None =>
      assert forall k :: 0 <= k < |s| ==> Lower(s)[k] != '.';
    case Some(i) =>
      assert Lower(s)[i + 1..] == Lower(s[i + 1..]);
      LastDotIsUnique(Lower(s), i);
  }

  /** The verdict does not depend on the letter case of the file name. */
  lemma AllowedFileIgnoresCase(filename: string)
    ensures AllowedFile(Lower(filename)) == AllowedFile(filename)
  {
    LowerKeepsLastDot(filename);
    match LastIndexOf(filename, '.')
    case None =>
    case Some(i) =>
      var ext := filename[i + 1..];
      assert Lower(filename)[i + 1..] == Lower(ext);
      LowerIdempotent(ext);
  }

  lemma AllowedFileExamples()
    ensures AllowedFile("a.tar.PNG")
    ensures AllowedFile("photo.JpEg")
    ensures !AllowedFile("png")
    ensures !AllowedFile("x.")
    ensures !AllowedFile("photo.png.exe")
  {
    LastDotIsUnique("a.tar.PNG", 5);
    assert Lower("PNG") == "png";
    LastDotIsUnique("photo.JpEg", 5);
    assert Lower("JpEg") == "jpeg";
    assert '.' !in "png";
    LastDotIsUnique("x.", 1);
    assert Lower("") == "";
    LastDotIsUnique("photo.png.exe", 9);
    assert Lower("exe") == "exe";
  }
}

=== FILE: wrappers.dfy ===
/** The optional value used throughout the model: a Python value that may be
    `None`, a dictionary key that may be missing, an upload that may be absent. */
module Wrappers {

  datatype Option<+T> = None | Some(value: T) {

    /** The value, or `default` when there is none (Python's `dict.get(k, default)`). */
    function GetOr(default: T): T {
      match this
      case Some(v) => v
      case None => default
    }
  }
}
